=== FILE: README.md ===
# Greedy frontier generator for the binary-weight knapsack (mpt.c)

A Dafny model of the frontier generator of Gorski, Paquete and Pedrosa's
greedy algorithm for 0-1 knapsack problems whose items have weights in
{0,1} on two capacity axes. Items are split into three buckets by their
weights: right `r`, up `u` and diagonal `d`. Each bucket is sorted by
non-increasing profit. `solve` emits the prefix-sum points on the two axes
of the grid. From each of them it starts the diagonal walk `buildGrid`.
At each step the walk takes either one right item plus one up item (a
"super item") or one diagonal item, whichever adds more. It emits one point
`(row, col, profit)` per step and may stop early through a cut test.

Modules:

- `Sums`: range sums `Sum(a, lo, hi)` of a bucket slice.
- `Loader`: parsed item records, the classification branch, the
  `desc_order` comparator, a sort with the contract of `qsort`, and the
  loading loop.
- `Grid`: the walk state, the loop guard, the decision rule, one step,
  the walk as a recursive definition (`Walk`) and as a loop (`BuildGrid`),
  the zones G1/G2/G3, and the cut. The cut is a parameter, so the walk
  properties hold for any cut; `SourceCut` is the cut of the source.
- `Solver`: the two loops of `solve` (`RowBasis`, `ColBasis`, `Solve`) and
  their recursive reference (`RowPass`, `ColPass`, `Frontier`).
- `Selection`: the bitstrings `put` writes.
- `Example`: the instance r = [10], u = [5], d = [8], traced in full.

Every `put` call is recorded as an `Emission` carrying the arguments
`(row, col, profit, rpos, upos, dpos)`. A call is recorded whether or not
an output file is open. The counter `solutions_found` is an explicit
in/out integer.

Decisions:

- **Classification test.** `w1 == w2 == 1` groups as `(w1 == w2) == 1`,
  because equality operators group left to right (section 6.5.9 of
  ISO/IEC 9899:2011). It therefore holds exactly when `w1 == w2`. This is
  reproduced literally: an item with weights (0, 0) goes to `d`.
- **Decision at mpt.c:112.** When `dpos >= nd` the source still reads
  `d[dpos]`, but then the `|| dpos >= nd` alone decides the branch. The
  model uses the guarded form. `Grid.LiteralBranchAgrees` shows the two
  decide alike whatever the stray read yields.
- **Cut indices.** The cut reads `r[nu-c]`, `r[c+nu]`, `u[nr-c]`,
  `d[c2-nu-1]` and `d[c1-nr-1]`. Here `c1, c2` is the entry cell and `c`
  is fixed once. These indices can leave their buckets. For example, a
  walk entered at row 1 in zone G1 or G2 reads `d[-nu]`, which is
  undefined behaviour in C. `SourceCut` keeps the index formulas as
  written but fires only when every index it reads is inside its bucket.
  Where the C program would read out of range, the model therefore does
  not cut.
- **Last prefix-sum step of `solve`.** On the last iteration the source
  adds `r[nr]` or `u[nu]`, an out-of-range read whose value is never used.
  The model skips the addition on that iteration.

Facts about the code that a reader might not expect:

- **Classification.** Every item with w1 == w2 goes to `d`, whatever the
  weights are, and no weight is checked. Of the others, w1 == 1 goes to
  `r` and everything else to `u`; for example, (2, 0) goes to `u`.
- **Offset `c`.** It is `row - col` in zone G1 and `col - row` otherwise
  (mpt.c:94). So it can be negative in zone G3 when nr < nu and
  col < row. `Grid.Offset` follows the code.
- **The walk from (1, 1)** on the instance r = [10], u = [5], d = [8]
  emits (1, 1, 15) after the super item (10 + 5), then (2, 2, 23) after
  the diagonal item (mpt.c:112-127). `Example.FrontierOfSmall` states the
  full sequence of nine points.

Observation: `put` marks position i of a class with '1' when i ≤ that
class's cursor. It receives the cursors before they are advanced. So each
class shows cursor + 1 marked items (`Selection.LineSegments`). For the
axis point (0, i), for instance, i + 1 right items and the first up and
diagonal items are marked. Its profit is only the sum of the first i
right items.

## Model

| member | source | states |
|---|---|---|
| Loader.Classify | mpt.c:55-64 | an item goes to `d` iff w1 == w2 (C's chained `==`), otherwise to `r` iff w1 == 1, otherwise to `u` |
| Loader.PartitionIsExact | mpt.c:52-64 | the three buckets together hold exactly the profits read, as a multiset; so nr + nu + nd is the number of item records |
| Loader.BucketMembership | mpt.c:55-64 | every item's profit is in the bucket of its class, and every bucket entry is the profit of an item of that class |
| Loader.DescOrder | mpt.c:31-33 | the comparator is negative exactly when a > b (a sorts first) and zero exactly when a == b |
| Loader.SortDesc | mpt.c:69-71 | the sorted bucket is non-increasing and a permutation of the bucket |
| Loader.Load | mpt.c:42-71 | after loading, each of r, u, d is non-increasing and a permutation of its class's profits, and the sizes add up to the record count |
| Grid.Gain | mpt.c:112-128 | a step adds the best of the available options (super item, diagonal item), and exactly the super item whenever the branch takes it; every read is inside its bucket |
| Grid.LiteralBranchAgrees | mpt.c:96-112 | inside the loop, the branch as written decides like `rpos<nr && upos<nu && (dpos>=nd \|\| r[rpos]+u[upos] >= d[dpos])`, whatever the read past `d` yields |
| Grid.Step | mpt.c:112-132 | one iteration advances rpos and upos by one each exactly when the branch takes the super item (so on r[rpos]+u[upos] == d[dpos] it does), otherwise dpos by one; it adds exactly the items passed, uses one unit of budget and moves one cell along the diagonal |
| Grid.Walk | mpt.c:86-135 | the walk terminates; a cut firing on the entry state ends it with no emission; emissions plus remaining budget equal the entry budget; it ends with the loop guard false or at a state where the cut fires; row, col and rpos, upos move in lock step |
| Grid.WalkLength | mpt.c:96-134 | with entry cursors within their buckets the walk emits at most (nd-dpos) + min(nr-rpos, nu-upos) points; exactly that many when the cut does not fire on the state the walk stops in, and exactly that many if and only if it stops with the loop guard false |
| Grid.WalkInvariant | mpt.c:96-132 | the k-th emission is at (row0+k, col0+k), has rpos-rpos0 == upos-upos0, is made while the loop guard holds, and its profit is the entry profit plus every item taken up to and including its step; the cut did not fire on the state it was made from |
| Grid.WalkChain | mpt.c:96-132 | the first emission carries the entry cell and cursors; each later emission is made from `Step` of the state the previous one was made from; one more `Step` gives the state the walk stops in, so every `put` receives exactly the pre-step cursors of its iteration |
| Grid.WalkFinalProfit | mpt.c:115-127 | when the walk stops, its profit is the entry profit plus the sum of all items taken |
| Grid.WalkProfitsNonDecreasing | mpt.c:115-125 | with non-negative item profits, emitted profits never decrease, starting from the entry profit |
| Grid.ZoneOf | mpt.c:89-91 | exactly one of isG1, isG2, isG3 holds for a cell |
| Grid.ZoneFixedAlongWalk | mpt.c:89-94 | every emission of a walk lies in the entry's zone and has the entry's offset `c` |
| Grid.SourceCut | mpt.c:99-108 | the cut fires exactly when no super item is left, the cell is outside the main rectangle and off the line col-row = nr-nu, and the entry zone's comparison holds with every index it reads inside its bucket (both directions, one pair of clauses per zone) |
| Grid.StepKeepsAligned | mpt.c:112-132 | a step from a state one cell past its items' usage keeps that alignment, and its emission is realized by the post-step cursors |
| Grid.WalkFeasible | mpt.c:112-132 | a walk entered aligned emits only points whose profit is the sum of prefixes of r, u, d with row = #up + #diag and col = #right + #diag |
| Grid.BuildGrid | mpt.c:86-135 | the loop emits exactly the walk's points, raises `solutions_found` by one per emission, and respects the emission bound |
| Solver.RowEntry | mpt.c:143-144 | the walk after the point (0, i) starts at (1, i+1) with rpos = i and the profit of the first i right items, aligned with its items |
| Solver.ColEntry | mpt.c:151-152 | the walk after the point (i, 0) starts at (i+1, 1) with upos = i and the profit of the first i up items, aligned with its items |
| Solver.RowBasis | mpt.c:140-146 | the first loop emits (0, i) with the running prefix sum, then the walk from (1, i+1), for i = 0..nr; the counter grows by the walk emissions only |
| Solver.ColBasis | mpt.c:148-154 | the second loop emits (i, 0) with the running prefix sum, then the walk from (i+1, 1), for i = 0..nu; the counter grows by the walk emissions only |
| Solver.Solve | mpt.c:137-155 | `solutions_found` equals the number of emissions minus the nr + nu + 2 axis points, and (0, 0, 0) is emitted at the start of each loop |
| Solver.RowPassHasAxis | mpt.c:141-146 | from iteration i on, the first loop emits (0, j) with the sum of the first j right items for every j in i..nr |
| Solver.ColPassHasAxis | mpt.c:149-154 | from iteration i on, the second loop emits (j, 0) with the sum of the first j up items for every j in i..nu |
| Solver.AxisPrefixSums | mpt.c:138-154 | the point (0, i) carries the sum of r[0..i) and the point (i, 0) the sum of u[0..i) |
| Solver.AxisProfitsNonDecreasing | mpt.c:140-154 | with non-negative profits the running sum `temp` never decreases: the profits of (0, i) and of (i, 0) do not decrease as i grows |
| Solver.RowPassFeasible | mpt.c:141-146 | every point of the first loop is realized by prefixes of the buckets matching its cell |
| Solver.ColPassFeasible | mpt.c:149-154 | every point of the second loop is realized by prefixes of the buckets matching its cell |
| Solver.FrontierFeasible | mpt.c:137-155 | for any cut, every point `solve` emits is the profit of some prefixes of r, u, d whose usage is exactly its cell |
| Selection.Bits | mpt.c:24-26 | one class's bitstring has one character per item, '1' exactly at the positions up to the cursor |
| Selection.OnesInBits | mpt.c:24-26 | a class's bitstring marks cursor + 1 items, clamped to 0..size |
| Selection.Line | mpt.c:20-29 | `put`'s bitstring has nr + nu + nd characters of '0'/'1'; position i of each class is '1' iff i ≤ that class's cursor |
| Selection.LineSegments | mpt.c:24-26 | the r, u and d segments of the bitstring mark cursor + 1 items each, clamped to the bucket size |
| Example.LoadSmall | mpt.c:55-71 | the records (10,1,0), (5,0,1), (8,1,1) load as r = [10], u = [5], d = [8] |
| Example.LastWalkIsCut | mpt.c:103 | the walk entered at (2, 1) is in zone G1 and is cut at once, since r[0] = 10 ≥ d[0] = 8 |
| Example.WalkFromOneOne | mpt.c:112-132 | the walk from (1, 1) emits (1, 1, 15) then (2, 2, 23) |
| Example.WalkFromOneTwo | mpt.c:99-128 | the walk from (1, 2) is in zone G3, its cut test reads u[0] = 5 and d[0] = 8, both in range, and does not fire because 5 < 8; it emits (1, 2, 18) |
| Example.RowPassOfSmall | mpt.c:140-146 | the first loop emits (0,0,0), (1,1,15), (2,2,23), (0,1,10), (1,2,18) |
| Example.ColPassOfSmall | mpt.c:148-154 | the second loop emits (0,0,0), (1,1,15), (2,2,23), (1,0,5) |
| Example.FrontierOfSmall | mpt.c:137-155 | the instance emits nine points in this order, five of them from walks |

## Left out

- File and text I/O is not modelled: opening the instance file, reading records with `fscanf`/`sscanf`, the `'n'`/`'i'` line dispatch, the `fprintf` field widths, `result.txt` and `main`. Classification works on already-parsed `(profit, w1, w2)` records.
- `malloc`/`free` and the global arrays are not modelled; buckets are unbounded sequences. The source relies on an `n` record coming before the items and on at most N items per bucket; neither is modelled, so the write past an array that breaking either would cause is absent.
- `qsort`'s own algorithm is a library body that is not visible. `SortDesc` is an insertion sort with the same contract: non-increasing and a permutation. Among equal profits any order gives the same sequence.
- Loader.DescOrder: `b - a` is computed on unbounded integers, without C `int` overflow.
- Profit sums are unbounded integers, without C `int` overflow.
- Grid.SourceCut: differs from the C program where the cut reads outside a bucket. There the C behaviour is undefined, and the model does not cut.
- Grid.Walk: the entry cursors must lie within their buckets. `solve`, the only caller, always passes such cursors.
- Grid.BuildGrid: the entry cursors must lie within their buckets, as for `Grid.Walk`.
- Pareto optimality and completeness of the emitted points are not proved. The comment at mpt.c:98 asserts that the cut stops a walk only when no non-dominated point remains on it, that is, that pruning drops only dominated points. Neither that claim nor Pareto optimality is proved here, and the cut's out-of-range reads (see `Grid.SourceCut`) make it doubtful. Only feasibility is proved (`Solver.FrontierFeasible`), with each walk pinned to the exact sequence of loop states (`Grid.WalkChain`).

=== FILE: example.dfy ===
/** A worked instance: one right item of profit 10, one up item of profit
    5, one diagonal item of profit 8, run with the source's cut. */
module Example {
  import opened Loader
  import opened Grid
  import opened Solver

  function Records(): seq<Item>
  {
    [Item(10, 1, 0), Item(5, 0, 1), Item(8, 1, 1)]
  }

  /** The instance after loading, stated field by field. */
  predicate IsSmall(b: Buckets)
  {
    b.r == [10] && b.u == [5] && b.d == [8]
  }

  /** Loading the three records gives r = [10], u = [5], d = [8]. */
  lemma LoadSmall()
    ensures IsSmall(Loaded(Records()))
  {
    var one := [Item(10, 1, 0)];
    var two := one + [Item(5, 0, 1)];
    assert Records() == two + [Item(8, 1, 1)];
    assert one[..0] == [] && two[..1] == one && Records()[..2] == two;
    assert Bucket(one, Right) == [10] && Bucket(one, Up) == [] && Bucket(one, Diagonal) == [];
    assert Bucket(two, Right) == [10] && Bucket(two, Up) == [5] && Bucket(two, Diagonal) == [];
    assert Bucket(Records(), Right) == [10];
    assert Bucket(Records(), Up) == [5];
    assert Bucket(Records(), Diagonal) == [8];
  }

  /** The walk entered at (2, 1) after the axis point (1, 0) lies in zone
      G1 and is cut before its first step, because r[0] = 10 >= d[0] = 8. */
  lemma LastWalkIsCut(b: Buckets)
    requires IsSmall(b)
    ensures IsG1(|b.r|, |b.u|, 2, 1)
    ensures SourceCut(b, 2, 1, State(2, 1, 0, 1, 0, 5))
    ensures Walk(b, SourceCut, 2, 1, State(2, 1, 0, 1, 0, 5)).trace == []
  {
  }

  /** The walk entered at (1, 1), once per loop of `solve`: a super item
      (10 + 5 >= 8), then the diagonal item. */
  lemma WalkFromOneOne(b: Buckets)
    requires IsSmall(b)
    ensures Walk(b, SourceCut, 1, 1, State(1, 1, 0, 0, 0, 0)).trace
            == [Emission(1, 1, 15, 0, 0, 0), Emission(2, 2, 23, 1, 1, 0)]
  {
    var s0 := State(1, 1, 0, 0, 0, 0);
    var s1 := State(2, 2, 1, 1, 0, 15);
    var s2 := State(3, 3, 1, 1, 1, 23);
    assert Step(b, s0) == s1;
    assert Step(b, s1) == s2;
    assert Walk(b, SourceCut, 1, 1, s2).trace == [];
    assert Walk(b, SourceCut, 1, 1, s1).trace == [Emission(2, 2, 23, 1, 1, 0)];
  }

  /** The walk entered at (1, 2) after the axis point (0, 1): the cut reads
      u[0] = 5 < d[0] = 8 and does not fire, so the diagonal item is taken. */
  lemma WalkFromOneTwo(b: Buckets)
    requires IsSmall(b)
    ensures CutApplies(b, State(1, 2, 1, 0, 0, 10)) && !SourceCut(b, 1, 2, State(1, 2, 1, 0, 0, 10))
    ensures IsG3(|b.r|, |b.u|, 1, 2) && InRange(b.u, |b.r| - 1) && InRange(b.d, 2 - |b.r| - 1)
            && b.u[0] < b.d[0]
    ensures Walk(b, SourceCut, 1, 2, State(1, 2, 1, 0, 0, 10)).trace
            == [Emission(1, 2, 18, 1, 0, 0)]
  {
    var t0 := State(1, 2, 1, 0, 0, 10);
    var t1 := State(2, 3, 1, 0, 1, 18);
    assert !SourceCut(b, 1, 2, t0);
    assert Step(b, t0) == t1;
    assert Walk(b, SourceCut, 1, 2, t1).trace == [];
  }

  /** The first loop of `solve` on the instance. */
  lemma RowPassOfSmall(b: Buckets)
    requires IsSmall(b)
    ensures RowPass(b, SourceCut, 0) == [
      Emission(0, 0, 0, 0, 0, 0), Emission(1, 1, 15, 0, 0, 0), Emission(2, 2, 23, 1, 1, 0),
      Emission(0, 1, 10, 1, 0, 0), Emission(1, 2, 18, 1, 0, 0)]
  {
    WalkFromOneOne(b);
    WalkFromOneTwo(b);
    assert RowEntry(b, 0) == State(1, 1, 0, 0, 0, 0);
    assert RowEntry(b, 1) == State(1, 2, 1, 0, 0, 10);
    assert RowPass(b, SourceCut, 2) == [];
  }

  /** The second loop of `solve` on the instance. */
  lemma ColPassOfSmall(b: Buckets)
    requires IsSmall(b)
    ensures ColPass(b, SourceCut, 0) == [
      Emission(0, 0, 0, 0, 0, 0), Emission(1, 1, 15, 0, 0, 0), Emission(2, 2, 23, 1, 1, 0),
      Emission(1, 0, 5, 0, 1, 0)]
  {
    WalkFromOneOne(b);
    LastWalkIsCut(b);
    assert ColEntry(b, 0) == State(1, 1, 0, 0, 0, 0);
    assert ColEntry(b, 1) == State(2, 1, 0, 1, 0, 5);
    assert ColPass(b, SourceCut, 2) == [];
  }

  /** Every `put` call of the instance, in order: nine points, five of them
      from walks, which is what `solutions_found` ends at. */
  lemma FrontierOfSmall(b: Buckets)
    requires IsSmall(b)
    ensures Frontier(b, SourceCut) == [
      Emission(0, 0, 0, 0, 0, 0), Emission(1, 1, 15, 0, 0, 0), Emission(2, 2, 23, 1, 1, 0),
      Emission(0, 1, 10, 1, 0, 0), Emission(1, 2, 18, 1, 0, 0),
      Emission(0, 0, 0, 0, 0, 0), Emission(1, 1, 15, 0, 0, 0), Emission(2, 2, 23, 1, 1, 0),
      Emission(1, 0, 5, 0, 1, 0)]
    ensures |Frontier(b, SourceCut)| - (|b.r| + |b.u| + 2) == 5
  {
    RowPassOfSmall(b);
    ColPassOfSmall(b);
  }
}

=== FILE: grid.dfy ===
/** The diagonal walk `buildGrid` (mpt.c:86-135): from an entry cell it
    repeatedly takes either one right item plus one up item (a "super
    item") or one diagonal item, whichever adds more, emits one point per
    step and moves one cell along the diagonal, until the items run out or
    the cut test stops it. */
module Grid {
  import opened Sums
  import opened Loader

  /** The walk's variables: grid cell, the three bucket cursors and the
      accumulated profit. */
  datatype State = State(row: int, col: int, rpos: int, upos: int, dpos: int, profit: int)

  /** The arguments of one `put` call: the cell, the profit after the step
      and the cursors as they were before the step. */
  datatype Emission = Emission(row: int, col: int, profit: int, rpos: int, upos: int, dpos: int)

  /** The cut test, given the buckets, the entry row and column of the walk
      (`c2` and `c1` in mpt.c:93) and the current state. */
  type Cut = (Buckets, int, int, State) -> bool

  function Min(a: int, b: int): int
  {
    if a <= b then a else b
  }

  /** Cursors within their buckets (a cursor equal to the size means the
      bucket is used up). */
  predicate Fits(b: Buckets, rpos: int, upos: int, dpos: int)
  {
    0 <= rpos <= |b.r| && 0 <= upos <= |b.u| && 0 <= dpos <= |b.d|
  }

  /** The loop guard of mpt.c:96: a diagonal item or a super item is left. */
  predicate Running(b: Buckets, rpos: int, upos: int, dpos: int)
  {
    !(dpos >= |b.d| && (rpos >= |b.r| || upos >= |b.u|))
  }

  /** How many more steps the items allow: every step uses up one diagonal
      item or one item of each of the other two buckets. */
  function Budget(b: Buckets, rpos: int, upos: int, dpos: int): int
    requires Fits(b, rpos, upos, dpos)
  {
    (|b.d| - dpos) + Min(|b.r| - rpos, |b.u| - upos)
  }

  /** The guarded decision of mpt.c:112: take the super item when both its
      halves exist and it is worth at least the next diagonal item, or when
      no diagonal item is left. */
  predicate TakesSuper(b: Buckets, rpos: int, upos: int, dpos: int)
    requires Fits(b, rpos, upos, dpos)
  {
    rpos < |b.r| && upos < |b.u| && (dpos >= |b.d| || b.r[rpos] + b.u[upos] >= b.d[dpos])
  }

  /** The amount one step adds (mpt.c:115 or mpt.c:124): the best of the
      options available, ties going to the super item. */
  function Gain(b: Buckets, rpos: int, upos: int, dpos: int): (g: int)
    requires Fits(b, rpos, upos, dpos) && Running(b, rpos, upos, dpos)
    ensures rpos < |b.r| && upos < |b.u| ==> g >= b.r[rpos] + b.u[upos]
    ensures dpos < |b.d| ==> g >= b.d[dpos]
    ensures (rpos < |b.r| && upos < |b.u| && g == b.r[rpos] + b.u[upos])
            || (dpos < |b.d| && g == b.d[dpos])
    ensures TakesSuper(b, rpos, upos, dpos) ==> g == b.r[rpos] + b.u[upos]
  {
    if TakesSuper(b, rpos, upos, dpos) then b.r[rpos] + b.u[upos] else b.d[dpos]
  }

  /** Within the loop, the branch exactly as written at mpt.c:112 --
      `((rpos<nr && upos<nu) && r[rpos]+u[upos] >= d[dpos]) || dpos >= nd` --
      decides the same as the guarded form whatever value the read
      `d[dpos]` yields once `dpos` is past the bucket. */
  lemma LiteralBranchAgrees(b: Buckets, rpos: int, upos: int, dpos: int, dRead: int)
    requires Fits(b, rpos, upos, dpos) && Running(b, rpos, upos, dpos)
    requires dpos < |b.d| ==> dRead == b.d[dpos]
    ensures (((rpos < |b.r| && upos < |b.u|) && b.r[rpos] + b.u[upos] >= dRead) || dpos >= |b.d|)
            <==> TakesSuper(b, rpos, upos, dpos)
  {
  }

  /** The items a state has taken since the state `s`. */
  function Taken(b: Buckets, s: State, rpos: int, upos: int, dpos: int): int
    requires Fits(b, s.rpos, s.upos, s.dpos)
    requires s.rpos <= rpos <= |b.r| && s.upos <= upos <= |b.u| && s.dpos <= dpos <= |b.d|
  {
    Sum(b.r, s.rpos, rpos) + Sum(b.u, s.upos, upos) + Sum(b.d, s.dpos, dpos)
  }

  /** One iteration of the loop body (mpt.c:112-132) that is not cut:
      it advances rpos and upos together exactly when the branch of
      mpt.c:112 takes the super item (ties included), otherwise dpos alone; adds exactly the
      items it moves past, uses up one unit of budget and moves one cell
      along the diagonal. */
  function Step(b: Buckets, s: State): (t: State)
    requires Fits(b, s.rpos, s.upos, s.dpos) && Running(b, s.rpos, s.upos, s.dpos)
    ensures Fits(b, t.rpos, t.upos, t.dpos)
    ensures t.row == s.row + 1 && t.col == s.col + 1
    ensures (t.rpos == s.rpos + 1 && t.upos == s.upos + 1 && t.dpos == s.dpos)
            || (t.rpos == s.rpos && t.upos == s.upos && t.dpos == s.dpos + 1)
    ensures t.profit == s.profit + Taken(b, s, t.rpos, t.upos, t.dpos)
    ensures t.profit == s.profit + Gain(b, s.rpos, s.upos, s.dpos)
    ensures Budget(b, t.rpos, t.upos, t.dpos) == Budget(b, s.rpos, s.upos, s.dpos) - 1
    ensures TakesSuper(b, s.rpos, s.upos, s.dpos) <==> t.dpos == s.dpos
  {
    assert s.rpos < |b.r| ==> Sum(b.r, s.rpos, s.rpos + 1) == b.r[s.rpos];
    assert s.upos < |b.u| ==> Sum(b.u, s.upos, s.upos + 1) == b.u[s.upos];
    assert s.dpos < |b.d| ==> Sum(b.d, s.dpos, s.dpos + 1) == b.d[s.dpos];
    if TakesSuper(b, s.rpos, s.upos, s.dpos) then
      State(s.row + 1, s.col + 1, s.rpos + 1, s.upos + 1, s.dpos,
            s.profit + b.r[s.rpos] + b.u[s.upos])
    else
      State(s.row + 1, s.col + 1, s.rpos, s.upos, s.dpos + 1, s.profit + b.d[s.dpos])
  }

  /** The `put` call of a step from `s` to `t`: the cell and cursors of
      `s`, the profit of `t`. */
  function Emit(s: State, t: State): Emission
  {
    Emission(s.row, s.col, t.profit, s.rpos, s.upos, s.dpos)
  }

  /** What a walk returns: the emissions in order and the state it stopped in. */
  datatype WalkResult = WalkResult(trace: seq<Emission>, last: State)

  /** The walk `buildGrid(row0, col0, ...)` as a recursive definition, for
      any cut. It emits one point per step; it stops either with nothing
      left to take, having used its whole budget, or where the cut fired.
      Coordinates and the right/up cursors move in lock step. */
  function Walk(b: Buckets, cut: Cut, row0: int, col0: int, s: State): (w: WalkResult)
    requires Fits(b, s.rpos, s.upos, s.dpos)
    ensures Fits(b, w.last.rpos, w.last.upos, w.last.dpos)
    ensures |w.trace| + Budget(b, w.last.rpos, w.last.upos, w.last.dpos)
            == Budget(b, s.rpos, s.upos, s.dpos)
    ensures Running(b, w.last.rpos, w.last.upos, w.last.dpos) ==> cut(b, row0, col0, w.last)
    ensures cut(b, row0, col0, s) ==> w == WalkResult([], s)
    ensures w.last.row == s.row + |w.trace| && w.last.col == s.col + |w.trace|
    ensures w.last.rpos - s.rpos == w.last.upos - s.upos
    ensures s.rpos <= w.last.rpos && s.upos <= w.last.upos && s.dpos <= w.last.dpos
    decreases Budget(b, s.rpos, s.upos, s.dpos)
  {
    if !Running(b, s.rpos, s.upos, s.dpos) || cut(b, row0, col0, s) then
      WalkResult([], s)
    else
      var t := Step(b, s);
      var w := Walk(b, cut, row0, col0, t);
      WalkResult([Emit(s, t)] + w.trace, w.last)
  }

  /** A step that is not cut contributes its emission ahead of the rest
      of the walk. */
  lemma WalkUnfold(b: Buckets, cut: Cut, row0: int, col0: int, s: State, before: seq<Emission>)
    requires Fits(b, s.rpos, s.upos, s.dpos) && Running(b, s.rpos, s.upos, s.dpos)
    requires !cut(b, row0, col0, s)
    ensures before + Walk(b, cut, row0, col0, s).trace
            == (before + [Emit(s, Step(b, s))]) + Walk(b, cut, row0, col0, Step(b, s)).trace
  {
  }

  /** Once the loop guard fails, the budget is spent. */
  lemma StoppedMeansSpent(b: Buckets, rpos: int, upos: int, dpos: int)
    requires Fits(b, rpos, upos, dpos) && !Running(b, rpos, upos, dpos)
    ensures Budget(b, rpos, upos, dpos) == 0
  {
  }

  /** With entry cursors within their buckets the walk emits at most
      (nd - dpos) + min(nr - rpos, nu - upos) points, and exactly that
      many when the cut does not fire on the state the walk stops in;
      it uses its whole budget exactly when it stops with the loop guard
      false. */
  lemma WalkLength(b: Buckets, cut: Cut, row0: int, col0: int, s: State)
    requires Fits(b, s.rpos, s.upos, s.dpos)
    ensures |Walk(b, cut, row0, col0, s).trace|
            <= (|b.d| - s.dpos) + Min(|b.r| - s.rpos, |b.u| - s.upos)
    ensures !cut(b, row0, col0, Walk(b, cut, row0, col0, s).last) ==>
            |Walk(b, cut, row0, col0, s).trace|
            == (|b.d| - s.dpos) + Min(|b.r| - s.rpos, |b.u| - s.upos)
    ensures |Walk(b, cut, row0, col0, s).trace|
            == (|b.d| - s.dpos) + Min(|b.r| - s.rpos, |b.u| - s.upos)
            <==> !Running(b, Walk(b, cut, row0, col0, s).last.rpos,
                          Walk(b, cut, row0, col0, s).last.upos, Walk(b, cut, row0, col0, s).last.dpos)
  {
    var w := Walk(b, cut, row0, col0, s);
    if !Running(b, w.last.rpos, w.last.upos, w.last.dpos) {
      StoppedMeansSpent(b, w.last.rpos, w.last.upos, w.last.dpos);
    }
  }

  /** The k-th emission of a walk entered in state `s`: it sits k cells
      along the diagonal, has moved the right and up cursors equally, was
      made while the loop guard held, and carries the entry profit plus
      every item taken before it plus the gain of its own step. */
  predicate EmittedAt(b: Buckets, s: State, k: int, e: Emission)
    requires Fits(b, s.rpos, s.upos, s.dpos)
  {
    && e.row == s.row + k && e.col == s.col + k
    && e.rpos - s.rpos == e.upos - s.upos
    && s.rpos <= e.rpos <= |b.r| && s.upos <= e.upos <= |b.u| && s.dpos <= e.dpos <= |b.d|
    && Running(b, e.rpos, e.upos, e.dpos)
    && e.profit == s.profit + Taken(b, s, e.rpos, e.upos, e.dpos) + Gain(b, e.rpos, e.upos, e.dpos)
  }

  /** The state a walk entered in `s` was in when it made the emission
      `e`: the cell and cursors of `e`, and the entry profit plus every
      item taken before it. */
  function PreState(b: Buckets, s: State, e: Emission): State
    requires Fits(b, s.rpos, s.upos, s.dpos)
    requires s.rpos <= e.rpos <= |b.r| && s.upos <= e.upos <= |b.u| && s.dpos <= e.dpos <= |b.d|
  {
    State(e.row, e.col, e.rpos, e.upos, e.dpos, s.profit + Taken(b, s, e.rpos, e.upos, e.dpos))
  }

  /** Sums of items taken over two consecutive stretches add up. */
  lemma TakenSplit(b: Buckets, s: State, t: State, rpos: int, upos: int, dpos: int)
    requires Fits(b, s.rpos, s.upos, s.dpos)
    requires s.rpos <= t.rpos <= rpos <= |b.r| && s.upos <= t.upos <= upos <= |b.u|
    requires s.dpos <= t.dpos <= dpos <= |b.d|
    ensures Taken(b, s, rpos, upos, dpos)
            == Taken(b, s, t.rpos, t.upos, t.dpos) + Taken(b, t, rpos, upos, dpos)
  {
    SumSplit(b.r, s.rpos, t.rpos, rpos);
    SumSplit(b.u, s.upos, t.upos, upos);
    SumSplit(b.d, s.dpos, t.dpos, dpos);
  }

  /** The final state of a walk holds the entry profit plus every item
      taken on the way. */
  lemma {:induction false} WalkFinalProfit(b: Buckets, cut: Cut, row0: int, col0: int, s: State)
    requires Fits(b, s.rpos, s.upos, s.dpos)
    ensures var w := Walk(b, cut, row0, col0, s);
            w.last.profit == s.profit + Taken(b, s, w.last.rpos, w.last.upos, w.last.dpos)
    decreases Budget(b, s.rpos, s.upos, s.dpos)
  {
    if Running(b, s.rpos, s.upos, s.dpos) && !cut(b, row0, col0, s) {
      var t := Step(b, s);
      var w := Walk(b, cut, row0, col0, t);
      WalkFinalProfit(b, cut, row0, col0, t);
      TakenSplit(b, s, t, w.last.rpos, w.last.upos, w.last.dpos);
    }
  }

  /** The walk invariant: the k-th emission is at (row0 + k, col0 + k)
      with lock-step cursors and carries the entry profit plus everything
      taken up to and including its own step; and the cut did not fire on
      the state it was made from (the early return of mpt.c:103-107 is
      never passed). */
  lemma {:induction false} WalkInvariant(b: Buckets, cut: Cut, row0: int, col0: int, s: State)
    requires Fits(b, s.rpos, s.upos, s.dpos)
    ensures forall k :: 0 <= k < |Walk(b, cut, row0, col0, s).trace| ==>
              && EmittedAt(b, s, k, Walk(b, cut, row0, col0, s).trace[k])
              && !cut(b, row0, col0, PreState(b, s, Walk(b, cut, row0, col0, s).trace[k]))
    decreases Budget(b, s.rpos, s.upos, s.dpos)
  {
    var w := Walk(b, cut, row0, col0, s);
    if Running(b, s.rpos, s.upos, s.dpos) && !cut(b, row0, col0, s) {
      var t := Step(b, s);
      var w' := Walk(b, cut, row0, col0, t);
      WalkInvariant(b, cut, row0, col0, t);
      assert w.trace == [Emit(s, t)] + w'.trace;
      forall k | 0 <= k < |w.trace|
        ensures EmittedAt(b, s, k, w.trace[k]) && !cut(b, row0, col0, PreState(b, s, w.trace[k]))
      {
        if k == 0 {
          assert PreState(b, s, w.trace[0]) == s;
        } else {
          EmittedAfterStep(b, s, t, k, w'.trace[k - 1]);
        }
      }
    }
  }

  /** An emission k - 1 steps after `Step(b, s)` is k steps after `s`. */
  lemma EmittedAfterStep(b: Buckets, s: State, t: State, k: int, e: Emission)
    requires Fits(b, s.rpos, s.upos, s.dpos) && Running(b, s.rpos, s.upos, s.dpos)
    requires t == Step(b, s)
    requires EmittedAt(b, t, k - 1, e)
    ensures EmittedAt(b, s, k, e)
    ensures PreState(b, s, e) == PreState(b, t, e)
  {
    TakenSplit(b, s, t, e.rpos, e.upos, e.dpos);
  }

  /** `e` is an emission of a walk entered in `s`, made while the loop
      guard held, and `t` is the state one step after the one it was made
      from. */
  predicate StepsTo(b: Buckets, s: State, e: Emission, t: State)
    requires Fits(b, s.rpos, s.upos, s.dpos)
  {
    && s.rpos <= e.rpos <= |b.r| && s.upos <= e.upos <= |b.u| && s.dpos <= e.dpos <= |b.d|
    && Running(b, e.rpos, e.upos, e.dpos)
    && t == Step(b, PreState(b, s, e))
  }

  /** Emission `e'` is made from the state one step after emission `e`. */
  predicate Follows(b: Buckets, s: State, e: Emission, e': Emission)
    requires Fits(b, s.rpos, s.upos, s.dpos)
  {
    && s.rpos <= e'.rpos <= |b.r| && s.upos <= e'.upos <= |b.u| && s.dpos <= e'.dpos <= |b.d|
    && StepsTo(b, s, e, PreState(b, s, e'))
  }

  /** Seen from the state before a step, an emission after it was made from
      the same state. */
  lemma PreStateAfterStep(b: Buckets, s: State, t: State, e: Emission)
    requires Fits(b, s.rpos, s.upos, s.dpos) && Running(b, s.rpos, s.upos, s.dpos)
    requires t == Step(b, s)
    requires t.rpos <= e.rpos <= |b.r| && t.upos <= e.upos <= |b.u| && t.dpos <= e.dpos <= |b.d|
    ensures s.rpos <= e.rpos && s.upos <= e.upos && s.dpos <= e.dpos
    ensures PreState(b, s, e) == PreState(b, t, e)
  {
    TakenSplit(b, s, t, e.rpos, e.upos, e.dpos);
  }

  /** A link of the chain seen from after a step is one from before it. */
  lemma FollowsAfterStep(b: Buckets, s: State, t: State, e: Emission, e': Emission)
    requires Fits(b, s.rpos, s.upos, s.dpos) && Running(b, s.rpos, s.upos, s.dpos)
    requires t == Step(b, s)
    requires Follows(b, t, e, e')
    ensures Follows(b, s, e, e')
  {
    PreStateAfterStep(b, s, t, e);
    PreStateAfterStep(b, s, t, e');
  }

  /** The same for the last link, into the state the walk stops in. */
  lemma StepsToAfterStep(b: Buckets, s: State, t: State, e: Emission, last: State)
    requires Fits(b, s.rpos, s.upos, s.dpos) && Running(b, s.rpos, s.upos, s.dpos)
    requires t == Step(b, s)
    requires StepsTo(b, t, e, last)
    ensures StepsTo(b, s, e, last)
  {
    PreStateAfterStep(b, s, t, e);
  }

  /** The first emission of a walk is made from the entry state, and the
      first emission after one step is made from the state after it. */
  lemma FirstLink(b: Buckets, s: State, t: State, e': Emission)
    requires Fits(b, s.rpos, s.upos, s.dpos) && Running(b, s.rpos, s.upos, s.dpos)
    requires t == Step(b, s)
    requires e'.row == t.row && e'.col == t.col
    requires e'.rpos == t.rpos && e'.upos == t.upos && e'.dpos == t.dpos
    ensures PreState(b, s, Emit(s, t)) == s
    ensures Follows(b, s, Emit(s, t), e')
  {
    PreStateAfterStep(b, s, t, e');
    assert PreState(b, t, e') == t;
  }

  /** The states the emissions of a walk are made from form the chain
      s, Step(s), Step(Step(s)), ..., and one more step reaches the state
      the walk stops in: each `put` receives exactly the cursors the loop
      holds at that iteration. */
  lemma {:induction false} WalkChain(b: Buckets, cut: Cut, row0: int, col0: int, s: State)
    requires Fits(b, s.rpos, s.upos, s.dpos)
    ensures |Walk(b, cut, row0, col0, s).trace| > 0 ==>
              && Walk(b, cut, row0, col0, s).trace[0].row == s.row && Walk(b, cut, row0, col0, s).trace[0].col == s.col
              && Walk(b, cut, row0, col0, s).trace[0].rpos == s.rpos && Walk(b, cut, row0, col0, s).trace[0].upos == s.upos
              && Walk(b, cut, row0, col0, s).trace[0].dpos == s.dpos
    ensures forall k :: 0 <= k < |Walk(b, cut, row0, col0, s).trace| - 1 ==>
              Follows(b, s, Walk(b, cut, row0, col0, s).trace[k], Walk(b, cut, row0, col0, s).trace[k + 1])
    ensures |Walk(b, cut, row0, col0, s).trace| > 0 ==>
              StepsTo(b, s, Walk(b, cut, row0, col0, s).trace[|Walk(b, cut, row0, col0, s).trace| - 1], Walk(b, cut, row0, col0, s).last)
    decreases Budget(b, s.rpos, s.upos, s.dpos)
  {
    var w := Walk(b, cut, row0, col0, s);
    if Running(b, s.rpos, s.upos, s.dpos) && !cut(b, row0, col0, s) {
      var t := Step(b, s);
      var w' := Walk(b, cut, row0, col0, t);
      WalkChain(b, cut, row0, col0, t);
      assert w.trace == [Emit(s, t)] + w'.trace;
      if |w'.trace| == 0 {
        assert PreState(b, s, w.trace[0]) == s;
      } else {
        FirstLink(b, s, t, w'.trace[0]);
        forall k | 1 <= k < |w.trace| - 1
          ensures Follows(b, s, w.trace[k], w.trace[k + 1])
        {
          FollowsAfterStep(b, s, t, w'.trace[k - 1], w'.trace[k]);
        }
        StepsToAfterStep(b, s, t, w'.trace[|w'.trace| - 1], w'.last);
      }
    }
  }

  /** With non-negative item profits, the profits a walk emits never
      decrease, starting from the entry profit. */
  lemma {:induction false} WalkProfitsNonDecreasing(b: Buckets, cut: Cut, row0: int, col0: int, s: State)
    requires Fits(b, s.rpos, s.upos, s.dpos)
    requires NonNegative(b.r) && NonNegative(b.u) && NonNegative(b.d)
    ensures var w := Walk(b, cut, row0, col0, s);
            |w.trace| > 0 ==> s.profit <= w.trace[0].profit
    ensures var w := Walk(b, cut, row0, col0, s);
            forall k :: 0 <= k < |w.trace| - 1 ==> w.trace[k].profit <= w.trace[k + 1].profit
    decreases Budget(b, s.rpos, s.upos, s.dpos)
  {
    var w := Walk(b, cut, row0, col0, s);
    if Running(b, s.rpos, s.upos, s.dpos) && !cut(b, row0, col0, s) {
      var t := Step(b, s);
      var w' := Walk(b, cut, row0, col0, t);
      WalkProfitsNonDecreasing(b, cut, row0, col0, t);
      assert w.trace == [Emit(s, t)] + w'.trace;
      assert s.profit <= t.profit by {
        if TakesSuper(b, s.rpos, s.upos, s.dpos) {
          assert b.r[s.rpos] >= 0 && b.u[s.upos] >= 0;
        } else {
          assert b.d[s.dpos] >= 0;
        }
      }
    }
  }

  /** The point `e` is the value of taking the first `nR` right, `nU` up
      and `nD` diagonal items: its row is the up-axis usage nU + nD, its
      column the right-axis usage nR + nD, its profit their sum. */
  predicate Realizes(b: Buckets, e: Emission, nR: int, nU: int, nD: int)
  {
    && 0 <= nR <= |b.r| && 0 <= nU <= |b.u| && 0 <= nD <= |b.d|
    && e.row == nU + nD && e.col == nR + nD
    && e.profit == Sum(b.r, 0, nR) + Sum(b.u, 0, nU) + Sum(b.d, 0, nD)
  }

  /** Some prefixes of the three buckets realize `e`. */
  ghost predicate Feasible(b: Buckets, e: Emission)
  {
    exists nR, nU, nD :: Realizes(b, e, nR, nU, nD)
  }

  /** A walk state one cell past the usage of the items its cursors have
      taken, holding exactly their profit: the states `solve` enters walks
      in. */
  predicate Aligned(b: Buckets, s: State)
  {
    && Fits(b, s.rpos, s.upos, s.dpos)
    && s.row == s.upos + s.dpos + 1 && s.col == s.rpos + s.dpos + 1
    && s.profit == Sum(b.r, 0, s.rpos) + Sum(b.u, 0, s.upos) + Sum(b.d, 0, s.dpos)
  }

  /** A step keeps a state aligned, and its emission is realized by the
      cursors after the step. */
  lemma StepKeepsAligned(b: Buckets, s: State)
    requires Aligned(b, s) && Running(b, s.rpos, s.upos, s.dpos)
    ensures Aligned(b, Step(b, s))
    ensures var t := Step(b, s); Realizes(b, Emit(s, t), t.rpos, t.upos, t.dpos)
  {
    var t := Step(b, s);
    SumSplit(b.r, 0, s.rpos, t.rpos);
    SumSplit(b.u, 0, s.upos, t.upos);
    SumSplit(b.d, 0, s.dpos, t.dpos);
  }

  /** A walk entered in an aligned state emits only feasible points. */
  lemma {:induction false} WalkFeasible(b: Buckets, cut: Cut, row0: int, col0: int, s: State)
    requires Aligned(b, s)
    ensures forall e :: e in Walk(b, cut, row0, col0, s).trace ==> Feasible(b, e)
    decreases Budget(b, s.rpos, s.upos, s.dpos)
  {
    if Running(b, s.rpos, s.upos, s.dpos) && !cut(b, row0, col0, s) {
      var t := Step(b, s);
      StepKeepsAligned(b, s);
      WalkFeasible(b, cut, row0, col0, t);
      assert Realizes(b, Emit(s, t), t.rpos, t.upos, t.dpos);
    }
  }

  /** The three zone flags of mpt.c:89-91, as written. */
  predicate IsG3(nr: int, nu: int, row: int, col: int)
  {
    col - row >= nr - nu
  }

  predicate IsG2(nr: int, nu: int, row: int, col: int)
  {
    col - row >= 0 && !IsG3(nr, nu, row, col)
  }

  predicate IsG1(nr: int, nu: int, row: int, col: int)
  {
    !IsG3(nr, nu, row, col) && !IsG2(nr, nu, row, col)
  }

  datatype Zone = G1 | G2 | G3

  /** The zone of a cell: exactly one of the three flags holds. */
  function ZoneOf(nr: int, nu: int, row: int, col: int): (z: Zone)
    ensures z == G1 <==> IsG1(nr, nu, row, col)
    ensures z == G2 <==> IsG2(nr, nu, row, col)
    ensures z == G3 <==> IsG3(nr, nu, row, col)
  {
    if IsG3(nr, nu, row, col) then G3
    else if IsG2(nr, nu, row, col) then G2
    else G1
  }

  /** The offset `c` of mpt.c:94. */
  function Offset(z: Zone, row: int, col: int): int
  {
    if z == G1 then row - col else col - row
  }

  /** Along a walk `col - row` does not change, so neither do the zone and
      the offset `c` computed once from the entry cell. */
  lemma ZoneFixedAlongWalk(b: Buckets, cut: Cut, row0: int, col0: int, s: State)
    requires Fits(b, s.rpos, s.upos, s.dpos)
    ensures var w := Walk(b, cut, row0, col0, s);
            forall k :: 0 <= k < |w.trace| ==>
              && ZoneOf(|b.r|, |b.u|, w.trace[k].row, w.trace[k].col) == ZoneOf(|b.r|, |b.u|, s.row, s.col)
              && Offset(ZoneOf(|b.r|, |b.u|, s.row, s.col), w.trace[k].row, w.trace[k].col)
                 == Offset(ZoneOf(|b.r|, |b.u|, s.row, s.col), s.row, s.col)
  {
    WalkInvariant(b, cut, row0, col0, s);
  }

  /** The precondition of the cut (mpt.c:99-101): no super item is left,
      the cell is outside the main rectangle and off the diagonal line
      col - row = nr - nu. */
  predicate CutApplies(b: Buckets, s: State)
  {
    && (s.rpos >= |b.r| || s.upos >= |b.u|)
    && (s.row >= |b.u| || s.col >= |b.r|)
    && s.col - s.row != |b.r| - |b.u|
  }

  predicate InRange(a: seq<int>, i: int)
  {
    0 <= i < |a|
  }

  /** The cut of mpt.c:99-108 with the entry cell (row0, col0) in the
      roles of `c2` and `c1`. The source reads `r[nu-c]`, `r[c+nu]`,
      `u[nr-c]`, `d[c2-nu-1]` and `d[c1-nr-1]` unchecked, and those indices
      can fall outside their buckets (undefined behaviour in C); this cut
      fires only when every index it reads is inside its bucket. */
  function SourceCut(b: Buckets, row0: int, col0: int, s: State): (fires: bool)
    ensures fires ==> CutApplies(b, s)
    ensures fires && IsG1(|b.r|, |b.u|, row0, col0) ==>
            var c := row0 - col0;
            InRange(b.r, |b.u| - c) && InRange(b.d, row0 - |b.u| - 1)
            && b.r[|b.u| - c] >= b.d[row0 - |b.u| - 1]
    ensures fires && IsG2(|b.r|, |b.u|, row0, col0) ==>
            var c := col0 - row0;
            InRange(b.r, c + |b.u|) && InRange(b.d, row0 - |b.u| - 1)
            && b.r[c + |b.u|] >= b.d[row0 - |b.u| - 1]
    ensures fires && IsG3(|b.r|, |b.u|, row0, col0) ==>
            var c := col0 - row0;
            InRange(b.u, |b.r| - c) && InRange(b.d, col0 - |b.r| - 1)
            && b.u[|b.r| - c] >= b.d[col0 - |b.r| - 1]
    ensures (CutApplies(b, s) && IsG1(|b.r|, |b.u|, row0, col0)
             && InRange(b.r, |b.u| - (row0 - col0)) && InRange(b.d, row0 - |b.u| - 1)
             && b.r[|b.u| - (row0 - col0)] >= b.d[row0 - |b.u| - 1]) ==> fires
    ensures (CutApplies(b, s) && IsG2(|b.r|, |b.u|, row0, col0)
             && InRange(b.r, (col0 - row0) + |b.u|) && InRange(b.d, row0 - |b.u| - 1)
             && b.r[(col0 - row0) + |b.u|] >= b.d[row0 - |b.u| - 1]) ==> fires
    ensures (CutApplies(b, s) && IsG3(|b.r|, |b.u|, row0, col0)
             && InRange(b.u, |b.r| - (col0 - row0)) && InRange(b.d, col0 - |b.r| - 1)
             && b.u[|b.r| - (col0 - row0)] >= b.d[col0 - |b.r| - 1]) ==> fires
  {
    var nr, nu := |b.r|, |b.u|;
    var z := ZoneOf(nr, nu, row0, col0);
    var c := Offset(z, row0, col0);
    if !CutApplies(b, s) then false
    else match z
      case G1 =>
        InRange(b.r, nu - c) && InRange(b.d, row0 - nu - 1) && b.r[nu - c] >= b.d[row0 - nu - 1]
      case G2 =>
        InRange(b.r, c + nu) && InRange(b.d, row0 - nu - 1) && b.r[c + nu] >= b.d[row0 - nu - 1]
      case G3 =>
        InRange(b.u, nr - c) && InRange(b.d, col0 - nr - 1) && b.u[nr - c] >= b.d[col0 - nr - 1]
  }

  /** `buildGrid` (mpt.c:86-135) as a loop. `count` is `solutions_found`
      on entry; each emission raises it by one. */
  method BuildGrid(b: Buckets, cut: Cut, row: int, col: int, rpos: int, upos: int, dpos: int,
                   profit: int, count: int)
    returns (trace: seq<Emission>, count': int)
    requires Fits(b, rpos, upos, dpos)
    ensures trace == Walk(b, cut, row, col, State(row, col, rpos, upos, dpos, profit)).trace
    ensures count' == count + |trace|
    ensures |trace| <= (|b.d| - dpos) + Min(|b.r| - rpos, |b.u| - upos)
  {
    var entry := State(row, col, rpos, upos, dpos, profit);
    var s := entry;
    trace := [];
    count' := count;
    while Running(b, s.rpos, s.upos, s.dpos)
      invariant Fits(b, s.rpos, s.upos, s.dpos)
      invariant Walk(b, cut, row, col, entry).trace == trace + Walk(b, cut, row, col, s).trace
      invariant count' == count + |trace|
      decreases Budget(b, s.rpos, s.upos, s.dpos)
    {
      if cut(b, row, col, s) {
        return;
      }
      ghost var before := trace;
      var next: State;
      if TakesSuper(b, s.rpos, s.upos, s.dpos) {
        count' := count' + 1;
        next := State(s.row + 1, s.col + 1, s.rpos + 1, s.upos + 1, s.dpos,
                      s.profit + b.r[s.rpos] + b.u[s.upos]);
        trace := trace + [Emit(s, next)];
      } else {
        count' := count' + 1;
        next := State(s.row + 1, s.col + 1, s.rpos, s.upos, s.dpos + 1, s.profit + b.d[s.dpos]);
        trace := trace + [Emit(s, next)];
      }
      assert next == Step(b, s);
      WalkUnfold(b, cut, row, col, s, before);
      s := next;
    }
  }
}

=== FILE: loader.dfy ===
/** Item classification and bucket sorting of `loadFromFile` (mpt.c),
    over records that have already been parsed into (profit, w1, w2). */
module Loader {

  /** One item record `i <profit> <w1> <w2>`. */
  datatype Item = Item(profit: int, w1: int, w2: int)

  /** The three weight classes: right (column axis), up (row axis),
      diagonal (both axes). */
  datatype Class = Right | Up | Diagonal

  /** The buckets `r`, `u` and `d`; their lengths are `nr`, `nu`, `nd`. */
  datatype Buckets = Buckets(r: seq<int>, u: seq<int>, d: seq<int>)

  /** C's `==` operator, which yields the int 1 or 0. */
  function CEq(a: int, b: int): int
  {
    if a == b then 1 else 0
  }

  /** The branch at mpt.c:55-64. The test `w1 == w2 == 1` groups as
      `(w1 == w2) == 1`, so it is taken exactly when w1 equals w2 --
      which sends an item with weights (0, 0) to the diagonal bucket. */
  function Classify(it: Item): (c: Class)
    ensures c == Diagonal <==> it.w1 == it.w2
    ensures c == Right <==> it.w1 != it.w2 && it.w1 == 1
    ensures c == Up <==> it.w1 != it.w2 && it.w1 != 1
  {
    if CEq(CEq(it.w1, it.w2), 1) != 0 then Diagonal
    else if it.w1 == 1 then Right
    else Up
  }

  /** Profits of the items of class `c`, in input order: what the loading
      loop has written into that bucket after reading `items`. */
  function Bucket(items: seq<Item>, c: Class): seq<int>
  {
    if |items| == 0 then []
    else
      var last := items[|items| - 1];
      Bucket(items[..|items| - 1], c) + (if Classify(last) == c then [last.profit] else [])
  }

  /** Profits of all items, in input order. */
  function Profits(items: seq<Item>): seq<int>
  {
    if |items| == 0 then [] else Profits(items[..|items| - 1]) + [items[|items| - 1].profit]
  }

  /** Every item lands in exactly one bucket: the three buckets together
      hold exactly the profits read, so nr + nu + nd is the record count. */
  lemma {:induction false} PartitionIsExact(items: seq<Item>)
    ensures multiset(Bucket(items, Right)) + multiset(Bucket(items, Up))
            + multiset(Bucket(items, Diagonal)) == multiset(Profits(items))
    ensures |Bucket(items, Right)| + |Bucket(items, Up)| + |Bucket(items, Diagonal)| == |items|
  {
    if |items| > 0 {
      PartitionIsExact(items[..|items| - 1]);
      assert |multiset(Profits(items))| == |Profits(items)|;
    }
  }

  /** An item's profit goes to the bucket of its class and to no other. */
  lemma {:induction false} BucketMembership(items: seq<Item>, c: Class)
    ensures forall it :: it in items && Classify(it) == c ==> it.profit in Bucket(items, c)
    ensures forall p :: p in Bucket(items, c) ==> exists it :: it in items && Classify(it) == c && it.profit == p
  {
    if |items| > 0 {
      var init := items[..|items| - 1];
      BucketMembership(init, c);
      assert items == init + [items[|items| - 1]];
    }
  }

  /** Sorted in non-increasing order. */
  predicate NonIncreasing(s: seq<int>)
  {
    forall i, j :: 0 <= i < j < |s| ==> s[i] >= s[j]
  }

  /** The comparator `desc_order` (mpt.c:31-33), over unbounded integers:
      negative when `a` must come first. */
  function DescOrder(a: int, b: int): (v: int)
    ensures v < 0 <==> a > b
    ensures v == 0 <==> a == b
  {
    b - a
  }

  /** Insert `x` into a non-increasing sequence, before the first element
      the comparator does not place ahead of it. */
  function Insert(x: int, s: seq<int>): (t: seq<int>)
    requires NonIncreasing(s)
    ensures NonIncreasing(t)
    ensures multiset(t) == multiset(s) + multiset{x}
    ensures |t| == |s| + 1
    ensures t[0] == x || (|s| > 0 && t[0] == s[0])
  {
    if |s| == 0 then [x]
    else if DescOrder(x, s[0]) <= 0 then [x] + s
    else
      assert s == [s[0]] + s[1..];
      [s[0]] + Insert(x, s[1..])
  }

  /** A non-increasing permutation of `s`: the contract of the `qsort`
      calls with `desc_order` (mpt.c:69-71). */
  function SortDesc(s: seq<int>): (t: seq<int>)
    ensures NonIncreasing(t)
    ensures multiset(t) == multiset(s)
  {
    if |s| == 0 then []
    else
      assert s == [s[0]] + s[1..];
      Insert(s[0], SortDesc(s[1..]))
  }

  /** The buckets after loading and sorting. */
  function Loaded(items: seq<Item>): Buckets
  {
    Buckets(SortDesc(Bucket(items, Right)), SortDesc(Bucket(items, Up)),
            SortDesc(Bucket(items, Diagonal)))
  }

  /** The loading loop and the three sorts of `loadFromFile`: each bucket
      is a non-increasing permutation of the profits of its class, and
      the bucket sizes add up to the number of item records. */
  method Load(items: seq<Item>) returns (b: Buckets)
    ensures b == Loaded(items)
    ensures NonIncreasing(b.r) && multiset(b.r) == multiset(Bucket(items, Right))
    ensures NonIncreasing(b.u) && multiset(b.u) == multiset(Bucket(items, Up))
    ensures NonIncreasing(b.d) && multiset(b.d) == multiset(Bucket(items, Diagonal))
    ensures |b.r| + |b.u| + |b.d| == |items|
  {
    var r, u, d := [], [], [];
    var k := 0;
    while k < |items|
      invariant 0 <= k <= |items|
      invariant r == Bucket(items[..k], Right)
      invariant u == Bucket(items[..k], Up)
      invariant d == Bucket(items[..k], Diagonal)
    {
      var it := items[k];
      assert items[..k + 1][..k] == items[..k];
      if CEq(CEq(it.w1, it.w2), 1) != 0 {
        d := d + [it.profit];
      } else if it.w1 == 1 {
        r := r + [it.profit];
      } else {
        u := u + [it.profit];
      }
      k := k + 1;
    }
    assert items[..k] == items;
    PartitionIsExact(items);
    b := Buckets(SortDesc(r), SortDesc(u), SortDesc(d));
    assert |multiset(b.r)| == |b.r| && |multiset(b.u)| == |b.u| && |multiset(b.d)| == |b.d|;
  }
}

=== FILE: selection.dfy ===
/** The selection bitstrings `put` writes after the numbers of a point
    (mpt.c:24-26): one character per item of r, then of u, then of d. */
module Selection {
  import opened Loader
  import opened Grid

  /** The characters one `for` loop of `put` writes for a bucket of `n`
      items with cursor `pos`: position i is '1' exactly when i <= pos. */
  function Bits(n: nat, pos: int): (s: seq<char>)
    ensures |s| == n
    ensures forall i :: 0 <= i < n ==> s[i] in {'0', '1'} && (s[i] == '1' <==> i <= pos)
  {
    if n == 0 then [] else Bits(n - 1, pos) + [if n - 1 <= pos then '1' else '0']
  }

  /** Number of '1' characters. */
  function Ones(s: seq<char>): nat
  {
    if |s| == 0 then 0 else Ones(s[..|s| - 1]) + (if s[|s| - 1] == '1' then 1 else 0)
  }

  /** `x` clamped to 0..n. */
  function Clamp(x: int, n: nat): nat
  {
    if x < 0 then 0 else if x > n then n else x
  }

  /** A bucket's bitstring marks the first pos + 1 items (as many as
      exist): one more than the cursor, so the item under a cursor that the
      step did not advance is marked although its profit was not added. */
  lemma {:induction false} OnesInBits(n: nat, pos: int)
    ensures Ones(Bits(n, pos)) == Clamp(pos + 1, n)
  {
    if n > 0 {
      OnesInBits(n - 1, pos);
      assert Bits(n, pos)[..n - 1] == Bits(n - 1, pos);
    }
  }

  /** The whole bitstring of one `put` call: nr + nu + nd characters, each
      class marking the positions up to its cursor. */
  function Line(b: Buckets, e: Emission): (s: seq<char>)
    ensures |s| == |b.r| + |b.u| + |b.d|
    ensures forall i :: 0 <= i < |b.r| ==> (s[i] == '1' <==> i <= e.rpos)
    ensures forall i :: |b.r| <= i < |b.r| + |b.u| ==> (s[i] == '1' <==> i - |b.r| <= e.upos)
    ensures forall i :: |b.r| + |b.u| <= i < |s| ==> (s[i] == '1' <==> i - |b.r| - |b.u| <= e.dpos)
    ensures forall i :: 0 <= i < |s| ==> s[i] in {'0', '1'}
  {
    Bits(|b.r|, e.rpos) + Bits(|b.u|, e.upos) + Bits(|b.d|, e.dpos)
  }

  /** The three class segments of a line are the three bucket bitstrings,
      so each has Clamp(cursor + 1, size) ones. */
  lemma LineSegments(b: Buckets, e: Emission)
    ensures var s := Line(b, e);
            && Ones(s[..|b.r|]) == Clamp(e.rpos + 1, |b.r|)
            && Ones(s[|b.r|..|b.r| + |b.u|]) == Clamp(e.upos + 1, |b.u|)
            && Ones(s[|b.r| + |b.u|..]) == Clamp(e.dpos + 1, |b.d|)
  {
    var s := Line(b, e);
    assert s[..|b.r|] == Bits(|b.r|, e.rpos);
    assert s[|b.r|..|b.r| + |b.u|] == Bits(|b.u|, e.upos);
    assert s[|b.r| + |b.u|..] == Bits(|b.d|, e.dpos);
    OnesInBits(|b.r|, e.rpos);
    OnesInBits(|b.u|, e.upos);
    OnesInBits(|b.d|, e.dpos);
  }
}

=== FILE: solver.dfy ===
/** The driver `solve` (mpt.c:137-155): it emits the prefix-sum points on
    the two axes and enters one diagonal walk from each. */
module Solver {
  import opened Sums
  import opened Loader
  import opened Grid

  /** The axis point (0, i) and the state of the walk entered after it
      (mpt.c:143-144). */
  function RowAxis(b: Buckets, i: int): Emission
    requires 0 <= i <= |b.r|
  {
    Emission(0, i, Sum(b.r, 0, i), i, 0, 0)
  }

  function RowEntry(b: Buckets, i: int): (s: State)
    requires 0 <= i <= |b.r|
    ensures Aligned(b, s)
  {
    State(1, i + 1, i, 0, 0, Sum(b.r, 0, i))
  }

  /** The axis point (i, 0) and the state of the walk entered after it
      (mpt.c:151-152). */
  function ColAxis(b: Buckets, i: int): Emission
    requires 0 <= i <= |b.u|
  {
    Emission(i, 0, Sum(b.u, 0, i), 0, i, 0)
  }

  function ColEntry(b: Buckets, i: int): (s: State)
    requires 0 <= i <= |b.u|
    ensures Aligned(b, s)
  {
    State(i + 1, 1, 0, i, 0, Sum(b.u, 0, i))
  }

  /** Iterations i, ..., nr of the first loop of `solve`. */
  function RowPass(b: Buckets, cut: Cut, i: int): seq<Emission>
    requires 0 <= i <= |b.r| + 1
    decreases |b.r| + 1 - i
  {
    if i > |b.r| then []
    else [RowAxis(b, i)] + Walk(b, cut, 1, i + 1, RowEntry(b, i)).trace + RowPass(b, cut, i + 1)
  }

  /** Iterations i, ..., nu of the second loop of `solve`. */
  function ColPass(b: Buckets, cut: Cut, i: int): seq<Emission>
    requires 0 <= i <= |b.u| + 1
    decreases |b.u| + 1 - i
  {
    if i > |b.u| then []
    else [ColAxis(b, i)] + Walk(b, cut, i + 1, 1, ColEntry(b, i)).trace + ColPass(b, cut, i + 1)
  }

  /** Every `put` call of `solve`, in order. */
  function Frontier(b: Buckets, cut: Cut): seq<Emission>
  {
    RowPass(b, cut, 0) + ColPass(b, cut, 0)
  }

  /** One iteration of the first loop appends its axis point (0, i), with
      the running sum `temp`, and the walk entered after it. */
  lemma RowPassUnfold(b: Buckets, cut: Cut, i: int, temp: int, before: seq<Emission>, walk: seq<Emission>)
    requires 0 <= i <= |b.r| && temp == Sum(b.r, 0, i)
    requires walk == Walk(b, cut, 1, i + 1, State(1, i + 1, i, 0, 0, temp)).trace
    requires before + RowPass(b, cut, i) == RowPass(b, cut, 0)
    ensures (before + [Emission(0, i, temp, i, 0, 0)] + walk) + RowPass(b, cut, i + 1) == RowPass(b, cut, 0)
  {
  }

  /** One iteration of the second loop appends its axis point (i, 0), with
      the running sum `temp`, and the walk entered after it. */
  lemma ColPassUnfold(b: Buckets, cut: Cut, i: int, temp: int, before: seq<Emission>, walk: seq<Emission>)
    requires 0 <= i <= |b.u| && temp == Sum(b.u, 0, i)
    requires walk == Walk(b, cut, i + 1, 1, State(i + 1, 1, 0, i, 0, temp)).trace
    requires before + ColPass(b, cut, i) == ColPass(b, cut, 0)
    ensures (before + [Emission(i, 0, temp, 0, i, 0)] + walk) + ColPass(b, cut, i + 1) == ColPass(b, cut, 0)
  {
  }

  /** The first loop of `solve` (mpt.c:140-146): the point (0, i) with the
      running prefix sum `temp`, then the walk from (1, i + 1). */
  method RowBasis(b: Buckets, cut: Cut, count: int) returns (trace: seq<Emission>, count': int)
    ensures trace == RowPass(b, cut, 0)
    ensures count' + |b.r| + 1 == count + |trace|
  {
    trace := [];
    count' := count;
    var temp := 0;
    var i := 0;
    while i <= |b.r|
      invariant 0 <= i <= |b.r| + 1
      invariant i <= |b.r| ==> temp == Sum(b.r, 0, i)
      invariant trace + RowPass(b, cut, i) == RowPass(b, cut, 0)
      invariant count' + i == count + |trace|
      decreases |b.r| + 1 - i
    {
      ghost var before := trace;
      trace := trace + [Emission(0, i, temp, i, 0, 0)];
      var walk;
      walk, count' := BuildGrid(b, cut, 1, i + 1, i, 0, 0, temp, count');
      RowPassUnfold(b, cut, i, temp, before, walk);
      trace := trace + walk;
      if i < |b.r| {
        temp := temp + b.r[i];
      }
      i := i + 1;
    }
  }

  /** The second loop of `solve` (mpt.c:148-154): the point (i, 0) with the
      running prefix sum `temp`, then the walk from (i + 1, 1). */
  method ColBasis(b: Buckets, cut: Cut, count: int) returns (trace: seq<Emission>, count': int)
    ensures trace == ColPass(b, cut, 0)
    ensures count' + |b.u| + 1 == count + |trace|
  {
    trace := [];
    count' := count;
    var temp := 0;
    var i := 0;
    while i <= |b.u|
      invariant 0 <= i <= |b.u| + 1
      invariant i <= |b.u| ==> temp == Sum(b.u, 0, i)
      invariant trace + ColPass(b, cut, i) == ColPass(b, cut, 0)
      invariant count' + i == count + |trace|
      decreases |b.u| + 1 - i
    {
      ghost var before := trace;
      trace := trace + [Emission(i, 0, temp, 0, i, 0)];
      var walk;
      walk, count' := BuildGrid(b, cut, i + 1, 1, 0, i, 0, temp, count');
      ColPassUnfold(b, cut, i, temp, before, walk);
      trace := trace + walk;
      if i < |b.u| {
        temp := temp + b.u[i];
      }
      i := i + 1;
    }
  }

  /** `solve` (mpt.c:137-155). `found` is `solutions_found`, reset to 0:
      it counts the walk emissions only, not the nr + nu + 2 axis points;
      the origin (0, 0, 0) is emitted once by each loop. */
  method Solve(b: Buckets, cut: Cut) returns (trace: seq<Emission>, found: int)
    ensures trace == Frontier(b, cut)
    ensures found + |b.r| + |b.u| + 2 == |trace|
    ensures 0 < |RowPass(b, cut, 0)| < |trace|
    ensures trace[0] == Emission(0, 0, 0, 0, 0, 0)
    ensures trace[|RowPass(b, cut, 0)|] == Emission(0, 0, 0, 0, 0, 0)
  {
    var rows, cols;
    rows, found := RowBasis(b, cut, 0);
    cols, found := ColBasis(b, cut, found);
    trace := rows + cols;
  }

  /** From iteration i on, the first loop emits (0, j) with the sum of the
      first j right items, for every j from i to nr. */
  lemma {:induction false} RowPassHasAxis(b: Buckets, cut: Cut, i: int)
    requires 0 <= i <= |b.r| + 1
    ensures forall j :: i <= j <= |b.r| ==> Emission(0, j, Sum(b.r, 0, j), j, 0, 0) in RowPass(b, cut, i)
    decreases |b.r| + 1 - i
  {
    if i <= |b.r| {
      RowPassHasAxis(b, cut, i + 1);
    }
  }

  /** From iteration i on, the second loop emits (j, 0) with the sum of the
      first j up items, for every j from i to nu. */
  lemma {:induction false} ColPassHasAxis(b: Buckets, cut: Cut, i: int)
    requires 0 <= i <= |b.u| + 1
    ensures forall j :: i <= j <= |b.u| ==> Emission(j, 0, Sum(b.u, 0, j), 0, j, 0) in ColPass(b, cut, i)
    decreases |b.u| + 1 - i
  {
    if i <= |b.u| {
      ColPassHasAxis(b, cut, i + 1);
    }
  }

  /** Both axes carry their prefix sums: (0, i) has the profit of the first
      i right items and (i, 0) that of the first i up items. */
  lemma AxisPrefixSums(b: Buckets, cut: Cut)
    ensures forall i :: 0 <= i <= |b.r| ==> Emission(0, i, Sum(b.r, 0, i), i, 0, 0) in Frontier(b, cut)
    ensures forall i :: 0 <= i <= |b.u| ==> Emission(i, 0, Sum(b.u, 0, i), 0, i, 0) in Frontier(b, cut)
  {
    RowPassHasAxis(b, cut, 0);
    ColPassHasAxis(b, cut, 0);
  }

  /** With non-negative profits, the running sum `temp` never decreases:
      the axis points (0, i) of the first loop and (i, 0) of the second
      carry non-decreasing profits as i grows. */
  lemma AxisProfitsNonDecreasing(b: Buckets)
    requires NonNegative(b.r) && NonNegative(b.u)
    ensures forall i, j :: 0 <= i <= j <= |b.r| ==> RowAxis(b, i).profit <= RowAxis(b, j).profit
    ensures forall i, j :: 0 <= i <= j <= |b.u| ==> ColAxis(b, i).profit <= ColAxis(b, j).profit
  {
    forall i, j | 0 <= i <= j <= |b.r|
      ensures RowAxis(b, i).profit <= RowAxis(b, j).profit
    {
      SumMonotone(b.r, 0, i, j);
    }
    forall i, j | 0 <= i <= j <= |b.u|
      ensures ColAxis(b, i).profit <= ColAxis(b, j).profit
    {
      SumMonotone(b.u, 0, i, j);
    }
  }

  /** Every point of the first loop from iteration i on is feasible. */
  lemma {:induction false} RowPassFeasible(b: Buckets, cut: Cut, i: int)
    requires 0 <= i <= |b.r| + 1
    ensures forall e :: e in RowPass(b, cut, i) ==> Feasible(b, e)
    decreases |b.r| + 1 - i
  {
    if i <= |b.r| {
      assert Realizes(b, RowAxis(b, i), i, 0, 0);
      WalkFeasible(b, cut, 1, i + 1, RowEntry(b, i));
      RowPassFeasible(b, cut, i + 1);
    }
  }

  /** Every point of the second loop from iteration i on is feasible. */
  lemma {:induction false} ColPassFeasible(b: Buckets, cut: Cut, i: int)
    requires 0 <= i <= |b.u| + 1
    ensures forall e :: e in ColPass(b, cut, i) ==> Feasible(b, e)
    decreases |b.u| + 1 - i
  {
    if i <= |b.u| {
      assert Realizes(b, ColAxis(b, i), 0, i, 0);
      WalkFeasible(b, cut, i + 1, 1, ColEntry(b, i));
      ColPassFeasible(b, cut, i + 1);
    }
  }

  /** For any cut, each point `solve` emits is the value of some prefixes
      of the three buckets whose usage is exactly the point's cell. */
  lemma FrontierFeasible(b: Buckets, cut: Cut)
    ensures forall e :: e in Frontier(b, cut) ==> Feasible(b, e)
  {
    RowPassFeasible(b, cut, 0);
    ColPassFeasible(b, cut, 0);
  }
}

=== FILE: sums.dfy ===
/** Range sums over a profit bucket: the running totals `temp` and `profit`
    of the greedy frontier generator are sums of bucket slices. */
module Sums {

  /** Sum of a[lo..hi), extended at the top end, the way a cursor that is
      incremented after each read accumulates it. */
  function Sum(a: seq<int>, lo: int, hi: int): int
    requires 0 <= lo <= hi <= |a|
    decreases hi - lo
  {
    if lo == hi then 0 else Sum(a, lo, hi - 1) + a[hi - 1]
  }

  /** A slice sum splits at any interior point. */
  lemma {:induction false} SumSplit(a: seq<int>, i: int, j: int, k: int)
    requires 0 <= i <= j <= k <= |a|
    ensures Sum(a, i, k) == Sum(a, i, j) + Sum(a, j, k)
    decreases k - j
  {
    if j < k {
      SumSplit(a, i, j, k - 1);
    }
  }

  /** All entries are non-negative. */
  predicate NonNegative(a: seq<int>)
  {
    forall i :: 0 <= i < |a| ==> a[i] >= 0
  }

  /** A slice of non-negative entries has a non-negative sum. */
  lemma {:induction false} SumNonNegative(a: seq<int>, lo: int, hi: int)
    requires 0 <= lo <= hi <= |a|
    requires NonNegative(a)
    ensures Sum(a, lo, hi) >= 0
    decreases hi - lo
  {
    if lo < hi {
      SumNonNegative(a, lo, hi - 1);
    }
  }

  /** Over non-negative entries, a longer prefix never sums to less. */
  lemma SumMonotone(a: seq<int>, lo: int, hi: int, hi': int)
    requires 0 <= lo <= hi <= hi' <= |a|
    requires NonNegative(a)
    ensures Sum(a, lo, hi) <= Sum(a, lo, hi')
  {
    SumSplit(a, lo, hi, hi');
    SumNonNegative(a, hi, hi');
  }
}
